=== FILE: README.md ===
# lua-realpath: the lexical path normaliser, in Dafny

The Lua module `realpath` exports one function:
`realpath(path [, normalize [, resolve]])`. With `resolve` (the default),
it hands the path to realpath(3). Before that it can normalise the path
without touching the file system (`normalize`). With `resolve` off, it only
normalises.

The normaliser is a hand-written scanner over the bytes of the Lua string:

- It collapses runs of `/` and drops `.` segments.
- It resolves `..` against the names collected so far.
- It removes a trailing `/` and returns `.` for an empty result.
- It fails with EILSEQ when the string holds a NUL byte before its end.

The repository has two copies of that scanner:

- `normalize_lua` in `src/realpath.c`;
- `lua_realpath_normalize` in `src/lua_realpath.h`.

They differ only in how `..` is handled and in the label of the EILSEQ
error, and the model keeps both.

The model is layered:

- **Bytes**, **Results**: bytes (`byte` newtype), the C-string view of a
  Lua string (cut at the first NUL), and the `Outcome` a Lua call returns:
  a path, or `nil` plus an errno and an operation name.
- **Segments**: `Split` (a path into its segments, with separator runs
  ignored) and `Join`, and the laws that connect them.
- **Lexical**: the reference normaliser. It splits the path, folds the
  segments with a `..` policy (`Corrected` for `normalize_lua`, `Naive`
  for the header copy) and renders the names back.
- **TokenStack**: the Lua-thread stack the C code builds: an optional root
  `"/"`, then (name, `"/"`) pairs. Both stack-level `..` rules are shown
  to act on that stack as the segment-level policy acts on names.
- **Scanner**: the C control flow (`CHECK_FIRST`, `ADD_SEGMENT`,
  `case '.'`, the `/` search) as phases of one loop over the bytes. It is
  proved equal to the reference on every input, for both policies.
- **Properties**: what the reference guarantees:
  - the shape of every output, and idempotence;
  - separator runs and `.` segments are irrelevant;
  - `name/..` cancels;
  - inputs without `..` only lose their `.` segments;
  - exactly when the two policies agree.
- **Realpath**: `normalize_lua` and the flag logic of `realpath_lua`.
  realpath(3) is a function parameter.
- **LuaRealpath**: `lua_realpath_normalize`.
- **Examples**: concrete inputs and their outputs under each policy.

Some results of the code are easy to misread from a quick look at the
algorithm; the model follows the code, which gives:

- `/..` gives `/` and `/a/../../b` gives `/b`: a `..` at the root is
  dropped, not kept.
- `a/b/..` gives `a`, with no trailing `/`: the trailing separator is
  removed whenever more than one entry is on the stack.
- `normalize_lua` labels its EILSEQ error `"fstat"`, not `"normalize"`;
  the header copy uses `"normalize"`.
- In `normalize_lua`, the branch of `case 1` that clears a single
  non-`/` entry can never run: the stack has one entry only when it is the
  bare root (`TokenStack.TokensSingle`).

## Model

| member | source | states |
|---|---|---|
| `Scanner.Scan` | src/realpath.c:36-155 | the byte scanner returns, for every input and either `..` policy, exactly what the segment-level reference returns: EILSEQ with the copy's label iff a NUL occurs before the declared length, otherwise the rendering of the resolved names |
| `Scanner.SkipSlashes` | src/realpath.c:58-61 | the cursor moves over exactly a run of `/` and stops on the first byte that is not one (the terminator included) |
| `Scanner.FindSlashOrNul` | src/realpath.c:113-119 | the search stops at the first `/` or NUL at or after the cursor, having passed only other bytes |
| `Scanner.CheckFirstStep` | src/realpath.c:44-67 | dispatching on the first byte of a segment keeps the scan invariant and makes progress |
| `Scanner.AddSegmentStep` | src/realpath.c:47-66 | the stack gains exactly the pending name, if there is one, and a `"/"`, and the names gain that name; the cursor passes exactly the run of `/` after it (at least one) and stops at the next other byte or the end; the next phase is `case '.'` when that byte is `.` and the search otherwise; the stack stays the token form of the names read so far |
| `Scanner.PushPending` | src/realpath.c:47-56 | pushing the pending segment, when there is one, and then `"/"` gives the token form of the names extended by that segment, now under the path's own root flag, and what follows the `/` still resolves to the same result |
| `Scanner.AfterSeparator` | src/realpath.c:58-65 | after the run of slashes the cursor has moved past at least one `/`, and the scan goes on in `case '.'` when a `.` follows and in the `/` search otherwise, with the invariant restored |
| `Scanner.AddSegmentSound` | src/realpath.c:47-65 | `ADD_SEGMENT` as a whole: the pushed entries are the token form of the pushed name, and the scan resumes after the separators with the invariant restored |
| `Scanner.DotSegmentStep` | src/realpath.c:67-111 | chosen by the two bytes after the `.` (the end read as NUL): a `.` segment goes back to `CHECK_FIRST` past it with the stack unchanged, a `..` segment goes back to `CHECK_FIRST` past it with the copy's `..` rule applied to the stack, and a name merely starting with `.` moves to the search with nothing else changed; in every arm the scan invariant is kept and the scan makes progress (the three arms are stated together as `DotSegmentMove`) |
| `Scanner.SearchSlashStep` | src/realpath.c:113-119 | the search passes only bytes that are neither `/` nor NUL and leaves the stack and the pending segment's start unchanged; it goes back to `ADD_SEGMENT` when it stops at a `/` and ends the scan when it stops at a NUL (the end read as one); the invariant is kept |
| `Scanner.SearchStop` | src/realpath.c:113-119 | where the search stops, the run behind it is a whole segment that is neither `.` nor `..`: it is pending before a `/` in `ADD_SEGMENT`, or at the end of the text |
| `Scanner.PendingStep` | src/realpath.c:50-53 | a segment ended by `/` or by the end is the next segment and is kept as a name |
| `Scanner.SkipDotSegment` | src/realpath.c:68-71 | on a `.` segment the cursor moves past the `.` and exactly the run of `/` after it, the stack and the names are unchanged, and the scan re-enters `CHECK_FIRST` with the invariant kept |
| `Scanner.SkipDotDotSegment` | src/realpath.c:72-110 | on a `..` segment the cursor moves past the `..` and exactly the run of `/` after it, the stack becomes the copy's `..` rule applied to it, the names become the segment-level policy applied to them, and the scan re-enters `CHECK_FIRST` with the invariant kept |
| `Scanner.DotStep` | src/realpath.c:68-71 | skipping a `.` segment leaves the names to resolve unchanged |
| `Scanner.DotDotStep` | src/realpath.c:72-99 | the stack after the `..` rule is the token form of the names after the segment-level `..` policy |
| `Scanner.DotName` | src/realpath.c:100-103 | a segment that merely starts with `.` (`.a`, `..a`) goes to the `/` search with the invariant intact |
| `Scanner.SkipToNextSegment` | src/realpath.c:105-110 | after a `.` or `..` segment the cursor passes exactly the run of `/` that follows it, stopping at the next other byte or the end, and `CHECK_FIRST` is re-entered there with the stack unchanged and the invariant restored |
| `Scanner.Restart` | src/realpath.c:105-110 | after a `.` or `..` segment and its separators, `CHECK_FIRST` is entered with the invariant re-established |
| `TokenStack.ParentLua` | src/realpath.c:75-98 | `normalize_lua`'s `..` either removes entries from the top only or pushes `".."`, `"/"`, and it pushes exactly when the stack is empty or the entry under the top is a retained `..`; a bare root is left alone. On the token stack it is the segment-level corrected policy (`TokenStack.TokensParent`) |
| `TokenStack.ParentHeader` | src/lua_realpath.h:75-79 | the header's `..` never pushes: it removes the top two entries exactly when there are more than one, and otherwise leaves the stack as it is. On the token stack it is the segment-level naive policy (`TokenStack.TokensParent`) |
| `TokenStack.Finish` | src/realpath.c:136-152 | an empty stack gives `.`; otherwise the result is the concatenation of the stack, less the top entry when that entry is a `"/"` above others. On the token stack of some names it is `Render` (`TokenStack.FinishTokens`) |
| `TokenStack.TokensSingle` | src/realpath.c:76-82 | the stack holds one entry iff it is the bare root `"/"`, so the arm that clears a single non-`/` entry is unreachable; it is empty iff the path is relative and no name is kept |
| `TokenStack.TokensPush` | src/realpath.c:50-56 | pushing a name and `"/"` gives the token form of the names extended by that name |
| `TokenStack.TokensPop` | src/realpath.c:86-89 | the entry under the top `"/"` is the last name, and popping two entries removes exactly that name |
| `TokenStack.TokensParent` | src/realpath.c:75-99 | both stack-level `..` rules (the header's pop-if-more-than-one and `normalize_lua`'s three cases) act on the token stack exactly as the segment-level policies act on the names |
| `TokenStack.FinishTokens` | src/realpath.c:136-152 | removing the trailing `"/"` and concatenating the stack renders the names: `/` plus the joined names under a root, `.` when nothing is left, otherwise the joined names |
| `TokenStack.FinishTokensLast` | src/realpath.c:129-152 | pushing the last segment and finishing renders the names extended by that segment |
| `TokenStack.ConcatTokens` | src/realpath.c:148-152 | concatenating the token stack of some names gives the root `/` when there is one, then every name followed by `/` |
| `Segments.SplitSkip` | src/realpath.c:58-62 | a run of separators contributes no segment |
| `Segments.SplitAt` | src/realpath.c:113-119 | a slash-free run that ends at a `/` or at the end is the first segment of what follows |
| `Segments.SplitAppend` | src/realpath.c:47-66 | the segments of `a/b` are the segments of `a` followed by those of `b` |
| `Segments.SplitJoin` | src/realpath.c:148-152 | joining segments with `/` and splitting again gives the same segments back |
| `Segments.JoinShape` | src/realpath.c:142-152 | a join of segments is empty iff there are none, neither starts nor ends with `/`, and never holds two `/` in a row |
| `Segments.JoinNulFree` | src/realpath.c:148-152 | concatenating NUL-free names gives a NUL-free string |
| `Bytes.CutAtNul` | src/realpath.c:121-127 | the scan's end is the first NUL, or the declared length when there is none |
| `Bytes.CString` | src/realpath.c:179-180 | a C function handed the buffer sees a NUL-free prefix of it, ended by the buffer's first NUL, that is the whole buffer when it holds no NUL |
| `Properties.StepNormal` | src/realpath.c:67-103 | one segment keeps the names in normal form: clean names, retained `..` only in front, and only in a relative path under the corrected policy |
| `Properties.ResolveNormal` | src/realpath.c:44-119 | resolving any NUL-free segments from a normal list of names keeps it normal |
| `Properties.ResolvedNormal` | src/realpath.c:44-119 | the names a NUL-free path resolves to are in normal form |
| `Properties.RenderShape` | src/realpath.c:136-152 | rendering normal names gives a well-formed path that keeps its anchor, splits back into the same names, and is `.` iff relative and empty |
| `Properties.OutputShape` | src/realpath.c:129-154 | every successful result is non-empty, NUL-free, has no `//`, and has no trailing `/` unless it is `/`; it holds no `.` segment unless it is `.`; it is absolute iff the input is; retained `..` come first; and no `..` is left under a root or under the naive policy |
| `Properties.Idempotent` | src/realpath.c:36-155 | normalising a result again returns the same result |
| `Properties.ResolveIdentity` | src/realpath.c:67-103 | segments that are already normal resolve to themselves |
| `Properties.ResolveAppend` | src/realpath.c:44-119 | resolving a concatenation of segments is resolving the second part from where the first left off |
| `Properties.NulFreeConcat` | src/realpath.c:121-127 | a concatenation is NUL-free iff both parts are |
| `Properties.SlashRunCollapses` | src/realpath.c:58-61 | `a//b` normalises like `a/b`, errors included |
| `Properties.DotSegmentVanishes` | src/realpath.c:68-71 | `a/./b` normalises like `a/b`, errors included |
| `Properties.ParentCancelsName` | src/realpath.c:84-90 | for a non-empty `a` and an ordinary name `n`, `a/n/..` normalises like `a` under both policies |
| `Properties.SplitNameParent` | src/realpath.c:84-90 | the segments of `a/n/..` are those of `a`, then `n`, then `..` |
| `Properties.ResolveNameParent` | src/realpath.c:84-90 | an ordinary name followed by `..` leaves the names as they were, under either policy |
| `Properties.ResolveWithoutParents` | src/realpath.c:100-103 | without `..` segments, resolution keeps every segment except `.`, in order |
| `Properties.OrdinaryNamesKept` | src/realpath.c:100-103 | a NUL-free path without `..` normalises to its own segments without the `.` ones |
| `Properties.ParentsPersist` | src/realpath.c:84-98 | under the corrected policy, once a `..` is retained it is never removed |
| `Properties.PoliciesAgreeWithoutParents` | src/lua_realpath.h:72-79 | from names without `..`, the naive fold equals the corrected fold whenever the corrected fold retains no `..` |
| `Properties.PoliciesAgreeIff` | src/lua_realpath.h:72-79 | for a NUL-free path, the two copies return the same string iff the corrected copy's output has no `..` segment |
| `Properties.PoliciesAgreeOnAbsolute` | src/lua_realpath.h:72-79 | on NUL-free absolute paths the two copies return the same result (with a NUL they fail alike but under different labels) |
| `Realpath.NormalizeLua` | src/realpath.c:36-155 | fails iff the string has a NUL before its end, and then with EILSEQ and label `"fstat"`; otherwise returns a well-formed path that keeps the input's anchor, has retained `..` only in front and none under a root, and normalises to itself |
| `Realpath.FromOs` | src/realpath.c:179-190 | realpath(3)'s answer becomes a string exactly when it succeeds, and that string is the prefix of the answer up to its first NUL; a failure keeps its errno under the label `"realpath"` |
| `Realpath.RealpathLua` | src/realpath.c:157-191 | every failure is either the normaliser's EILSEQ (only when normalising was asked for or resolution was off) or realpath(3)'s; with resolution off, a success is a well-formed normalised path |
| `Realpath.Defaults` | src/realpath.c:160-161 | omitting both flags means `normalize = false, resolve = true`: the C string of the argument goes straight to realpath(3) |
| `Realpath.NormalizeOnly` | src/realpath.c:164-167 | with `resolve` off, the result is `normalize_lua`'s whatever the `normalize` flag and whatever realpath(3) would answer |
| `Realpath.NormalizeFailureShortCircuits` | src/realpath.c:169-174 | when normalising fails, the EILSEQ failure is returned and realpath(3) is not consulted: two different resolvers give the same result |
| `Realpath.NormalizeThenResolve` | src/realpath.c:169-180 | normalising then resolving a NUL-free path is resolving its normalised form without normalisation |
| `Realpath.ResolveCutsAtNul` | src/realpath.c:159-180 | without normalisation an embedded NUL is no error: realpath(3) sees only the bytes before it |
| `LuaRealpath.LuaRealpathNormalize` | src/lua_realpath.h:36-135 | fails iff the string has a NUL before its end, and then with EILSEQ and label `"normalize"`; otherwise returns a well-formed path that keeps the input's anchor, never holds a `..` segment, and normalises to itself |
| `Examples.LeadingParents` | src/lua_realpath.h:72-79 | `../../x` stays `../../x` under the corrected policy but becomes `x` in the header copy |
| `Examples.OnlyParents` | src/realpath.c:92-98 | `../..` is kept by the corrected policy and becomes `.` in the header copy |
| `Examples.EmptyAndDot` | src/realpath.c:136-140 | the empty path and `.` both give `.` |
| `Examples.ParentOfRoot` | src/realpath.c:76-82 | `/..` gives `/` |
| `Examples.ParentBackToRoot` | src/realpath.c:84-90 | `/a/..` gives `/` |
| `Examples.ParentBeyondRoot` | src/realpath.c:76-82 | `/../a` gives `/a` |
| `Examples.ParentOfName` | src/realpath.c:84-90 | `a/b/..` gives `a`, with no trailing `/` |
| `Examples.ParentEmptiesTheStack` | src/realpath.c:136-140 | `abc/..` gives `.` |
| `Examples.ParentAfterEmptying` | src/realpath.c:92-98 | `a/../..` gives `..` under the corrected policy and `.` in the header copy |
| `Examples.TwoParentsEmptyTheStack` | src/realpath.c:84-90 | `a/b/../..` gives `.` |
| `Examples.ParentPastRoot` | src/realpath.c:76-82 | `/a/../../b` gives `/b` |
| `Examples.DotInside` | src/realpath.c:68-71 | `a/./b` gives `a/b` |
| `Examples.DotNames` | src/realpath.c:100-103 | `.a` and `..a` are ordinary names and come back unchanged |
| `Examples.SlashRuns` | src/realpath.c:58-61 | `a//b///c` gives `a/b/c` |
| `Examples.OnlySlashes` | src/realpath.c:142-146 | `///` gives `/` |
| `Examples.TrailingSlash` | src/realpath.c:142-146 | `a/` gives `a` |
| `Examples.EmbeddedNul` | src/realpath.c:121-127 | a NUL inside the string fails with EILSEQ, labelled `"fstat"` in `normalize_lua` and `"normalize"` in the header copy |
| `Examples.RootedFacts` | src/realpath.c:44-152 | normalising `/` followed by NUL-free segments joined with `/` gives the rendering of their resolution under the root |
| `Examples.PlainFacts` | src/realpath.c:44-152 | normalising any list of NUL-free segments joined with `/`, the empty list included, gives the rendering of their resolution as a relative path |

## Left out

- The Lua C API plumbing (`lua_newthread`, `luaL_checkstack`, `lua_xmove`, `lua_replace`, the stack slots of the calling state): the token stack is a sequence of strings and the result an `Outcome` value.
- Running out of memory or Lua stack space (`luaL_checkstack` raising an error): not modelled; every push succeeds.
- `lauxh_checklstring` and `lauxh_optboolean` raising argument errors for values of the wrong type: the arguments are a byte string and two optional booleans.
- realpath(3) itself, `errno` and the static buffer `REALPATH_BUF`: realpath(3) is a function parameter returning a path or an errno.
- `luaopen_realpath` (`pathconf`, buffer allocation, `lua_errno_loadlib`): module set-up with no behaviour of the normaliser in it.
- The error object of `lua_errno_new`: the model keeps only the errno and the operation label. EILSEQ is given the Linux value 84.
- `Realpath.RealpathLua`: its contract does not restate the resolving branches case by case; the lemmas `Realpath.Defaults`, `Realpath.NormalizeOnly`, `Realpath.NormalizeFailureShortCircuits`, `Realpath.NormalizeThenResolve` and `Realpath.ResolveCutsAtNul` state them.

## Findings

| source | as written | input that shows it | evidently intended | confidence | as-written member | corrected member |
|---|---|---|---|---|---|---|
| src/lua_realpath.h:72-79 | a `..` with nothing to pop is silently dropped, even in a relative path | `../../x` gives `x` (also `../..` gives `.`) | a leading `..` of a relative path is kept, giving `../../x`, as `normalize_lua` does | not executed; high (the other copy in src/realpath.c keeps such a `..`) | `LuaRealpath.LuaRealpathNormalize`, shown by `Examples.LeadingParents` | `Realpath.NormalizeLua` (used by `Realpath.RealpathLua`), with `Properties.OutputShape` and `Properties.ParentsPersist` |

=== FILE: bytes.dfy ===
/** Bytes of a Lua string as the C code sees them: a buffer of declared
    length `len` whose index `len` holds the terminating NUL. */
module Bytes {

  newtype byte = x: int | 0 <= x < 256

  const NUL: byte := 0
  const DOT: byte := 46
  const SLASH: byte := 47

  /** The byte the scanner reads at index `i`; index `|s|` is the NUL that
      Lua strings always carry after their last byte. */
  function Peek(s: seq<byte>, i: nat): byte
    requires i <= |s|
  {
    if i < |s| then s[i] else NUL
  }

  predicate NulFree(s: seq<byte>) {
    forall i :: 0 <= i < |s| ==> s[i] != NUL
  }

  /** Index of the first NUL byte, or `|s|` when there is none: the length
      a C function taking `s` as a `char *` sees. */
  function CutAtNul(s: seq<byte>): (n: nat)
    ensures n <= |s|
    ensures NulFree(s[..n])
    ensures n < |s| ==> s[n] == NUL
  {
    if |s| == 0 || s[0] == NUL then 0 else 1 + CutAtNul(s[1..])
  }

  /** The string a C function receives when handed the buffer `s`. */
  function CString(s: seq<byte>): (c: seq<byte>)
    ensures |c| <= |s| && c == s[..|c|]
    ensures NulFree(c)
    ensures NulFree(s) ==> c == s
    ensures |c| < |s| ==> s[|c|] == NUL
  {
    s[..CutAtNul(s)]
  }

  /** Up to the first NUL, the raw buffer and the C string read the same,
      including the terminator at the end. */
  lemma PeekCString(s: seq<byte>, i: nat)
    requires i <= CutAtNul(s)
    ensures Peek(s, i) == Peek(CString(s), i)
  {
  }

  /** Up to the first NUL, a slice of the raw buffer is the same slice of
      the C string. */
  lemma SliceCString(s: seq<byte>, i: nat, j: nat)
    requires i <= j <= CutAtNul(s)
    ensures CString(s)[i..j] == s[i..j]
  {
    var c := CString(s);
    assert |c| == CutAtNul(s);
    forall k | 0 <= k < j - i
      ensures c[i..j][k] == s[i..j][k]
    {
      assert c[i + k] == s[i + k];
    }
  }

  /** A run of non-NUL bytes starting inside the C string lies wholly
      inside it, and reads the same there. */
  lemma RunInCString(s: seq<byte>, i: nat, j: nat)
    requires i <= CutAtNul(s) && j <= |s|
    requires forall k :: i <= k < j ==> s[k] != NUL
    ensures j <= CutAtNul(s)
    ensures forall k :: i <= k < j ==> CString(s)[k] == s[k]
  {
    var n := CutAtNul(s);
    assert n < |s| ==> s[n] == NUL;
  }
}

=== FILE: examples.dfy ===
/** Concrete inputs and what each copy of the normaliser returns for them.
    Bytes are written as numbers: 46 is `.`, 47 is `/`, 0 is NUL, and
    97, 98, 99, 120 are `a`, `b`, `c`, `x`. Each example takes its input
    as a parameter pinned by its precondition, and names the segments
    the input splits into. */
module Examples {
  import opened Bytes
  import opened Results
  import opened Segments
  import opened Lexical
  import Properties

  /** Normalising `/` followed by joined segments renders their
      resolution under the root. */
  lemma RootedFacts(policy: Policy, path: seq<byte>, names: seq<seq<byte>>)
    requires forall i :: 0 <= i < |names| ==> IsSegment(names[i]) && NulFree(names[i])
    requires path == [SLASH] + Join(names)
    ensures Normalize(policy, path) == Ok(Render(true, Resolve(policy, true, [], names)))
  {
    assert path[1..] == Join(names);
    SplitJoin(names);
    JoinNulFree(names);
    Properties.NulFreeConcat([SLASH], Join(names));
  }

  /** Normalising joined segments renders their resolution as a relative
      path. */
  lemma PlainFacts(policy: Policy, path: seq<byte>, names: seq<seq<byte>>)
    requires forall i :: 0 <= i < |names| ==> IsSegment(names[i]) && NulFree(names[i])
    requires path == Join(names)
    ensures Normalize(policy, path) == Ok(Render(false, Resolve(policy, false, [], names)))
  {
    SplitJoin(names);
    JoinNulFree(names);
    JoinShape(names);
  }

  /** `../../x`: the corrected policy keeps both `..`, the naive one drops
      them. */
  lemma LeadingParents(path: seq<byte>)
    requires path == [46, 46, 47, 46, 46, 47, 120]
    ensures Normalize(Corrected, path) == Ok(path)
    ensures Normalize(Naive, path) == Ok([120])
  {
    var segs: seq<seq<byte>> := [[46, 46], [46, 46], [120]];
    PlainFacts(Corrected, path, segs);
    PlainFacts(Naive, path, segs);
    assert Resolve(Corrected, false, [], segs) == segs;
  }

  /** `../..`: kept by the corrected policy, `.` under the naive one. */
  lemma OnlyParents(path: seq<byte>)
    requires path == [46, 46, 47, 46, 46]
    ensures Normalize(Corrected, path) == Ok(path)
    ensures Normalize(Naive, path) == Ok([46])
  {
    var segs: seq<seq<byte>> := [[46, 46], [46, 46]];
    PlainFacts(Corrected, path, segs);
    PlainFacts(Naive, path, segs);
    assert Resolve(Corrected, false, [], segs) == segs;
  }

  /** The empty path and `.` both normalise to `.`. */
  lemma EmptyAndDot(policy: Policy, path: seq<byte>)
    requires path == [] || path == [46]
    ensures Normalize(policy, path) == Ok([46])
  {
    if path == [46] {
      PlainFacts(policy, path, [[46]]);
    }
  }

  /** `/..` stays at the root. */
  lemma ParentOfRoot(policy: Policy, path: seq<byte>)
    requires path == [47, 46, 46]
    ensures Normalize(policy, path) == Ok([47])
  {
    RootedFacts(policy, path, [[46, 46]]);
  }

  /** `/a/..` is `/`. */
  lemma ParentBackToRoot(policy: Policy, path: seq<byte>)
    requires path == [47, 97, 47, 46, 46]
    ensures Normalize(policy, path) == Ok([47])
  {
    RootedFacts(policy, path, [[97], [46, 46]]);
  }

  /** `/../a` is `/a`: a `..` at the root is dropped. */
  lemma ParentBeyondRoot(policy: Policy, path: seq<byte>)
    requires path == [47, 46, 46, 47, 97]
    ensures Normalize(policy, path) == Ok([47, 97])
  {
    RootedFacts(policy, path, [[46, 46], [97]]);
  }

  /** `a/b/..` is `a`. */
  lemma ParentOfName(policy: Policy, path: seq<byte>)
    requires path == [97, 47, 98, 47, 46, 46]
    ensures Normalize(policy, path) == Ok([97])
  {
    PlainFacts(policy, path, [[97], [98], [46, 46]]);
  }

  /** `abc/..` is `.`. */
  lemma ParentEmptiesTheStack(policy: Policy, path: seq<byte>)
    requires path == [97, 98, 99, 47, 46, 46]
    ensures Normalize(policy, path) == Ok([46])
  {
    PlainFacts(policy, path, [[97, 98, 99], [46, 46]]);
  }

  /** `a/../..`: once the name is gone, the corrected policy keeps the
      second `..`, the naive one drops it. */
  lemma ParentAfterEmptying(path: seq<byte>)
    requires path == [97, 47, 46, 46, 47, 46, 46]
    ensures Normalize(Corrected, path) == Ok([46, 46])
    ensures Normalize(Naive, path) == Ok([46])
  {
    var segs: seq<seq<byte>> := [[97], [46, 46], [46, 46]];
    PlainFacts(Corrected, path, segs);
    PlainFacts(Naive, path, segs);
  }

  /** `a/b/../..` is `.`. */
  lemma TwoParentsEmptyTheStack(policy: Policy, path: seq<byte>)
    requires path == [97, 47, 98, 47, 46, 46, 47, 46, 46]
    ensures Normalize(policy, path) == Ok([46])
  {
    PlainFacts(policy, path, [[97], [98], [46, 46], [46, 46]]);
  }

  /** `/a/../../b` is `/b`. */
  lemma ParentPastRoot(policy: Policy, path: seq<byte>)
    requires path == [47, 97, 47, 46, 46, 47, 46, 46, 47, 98]
    ensures Normalize(policy, path) == Ok([47, 98])
  {
    RootedFacts(policy, path, [[97], [46, 46], [46, 46], [98]]);
  }

  /** `a/./b` is `a/b`. */
  lemma DotInside(policy: Policy, path: seq<byte>)
    requires path == [97, 47, 46, 47, 98]
    ensures Normalize(policy, path) == Ok([97, 47, 98])
  {
    PlainFacts(policy, path, [[97], [46], [98]]);
  }

  /** `.a` (a hidden name) and `..a` are ordinary names. */
  lemma DotNames(policy: Policy, path: seq<byte>)
    requires path == [46, 97] || path == [46, 46, 97]
    ensures Normalize(policy, path) == Ok(path)
  {
    assert path != DotSeg && path != DotDotSeg;
    PlainFacts(policy, path, [path]);
    assert Resolve(policy, false, [], [path]) == [path];
  }

  /** `a//b///c` splits into `a`, `b`, `c`. */
  lemma SlashRunsSplit(path: seq<byte>)
    requires path == [97, 47, 47, 98, 47, 47, 47, 99]
    ensures Split(path) == [[97], [98], [99]]
  {
    assert path[0..] == path;
    assert path[0..1] == [97];
    assert path[3..4] == [98];
    assert path[7..8] == [99];
    assert path[8..] == [];
    SplitAt(path, 7, 8);
    var tail: seq<seq<byte>> := [[99]];
    assert Split(path[7..]) == tail;
    SplitSkip(path, 4, 7);
    SplitAt(path, 3, 4);
    assert Split(path[3..]) == [[98]] + tail;
    SplitSkip(path, 1, 3);
    SplitAt(path, 0, 1);
    assert Split(path) == [[97]] + ([[98]] + tail);
  }

  /** `a//b///c` is `a/b/c`. */
  lemma SlashRuns(policy: Policy, path: seq<byte>)
    requires path == [97, 47, 47, 98, 47, 47, 47, 99]
    ensures Normalize(policy, path) == Ok([97, 47, 98, 47, 99])
  {
    var names: seq<seq<byte>> := [[97], [98], [99]];
    SlashRunsSplit(path);
    assert NulFree(path);
    assert Resolve(policy, false, [], names) == names;
    assert Join(names) == [97, 47, 98, 47, 99];
  }

  /** `///` is `/`. */
  lemma OnlySlashes(policy: Policy, path: seq<byte>)
    requires path == [47, 47, 47]
    ensures Normalize(policy, path) == Ok([47])
  {
    var p1 := path[1..];
    var p2 := p1[1..];
    assert p2[1..] == [];
    assert Split(p2) == [];
    assert Split(p1) == [];
    assert Split(path) == [];
  }

  /** `a/` is `a`. */
  lemma TrailingSlash(policy: Policy, path: seq<byte>)
    requires path == [97, 47]
    ensures Normalize(policy, path) == Ok([97])
  {
    assert path == [97] + [SLASH] + [];
    SplitAppend([97], []);
    SplitSingle([97]);
    assert Split(path) == [[97]];
    assert Resolve(policy, false, [], [[97]]) == [[97]];
    assert Join([[97]]) == [97];
  }

  /** A NUL before the end fails, with each copy's operation name. */
  lemma EmbeddedNul(path: seq<byte>)
    requires path == [97, 0, 98]
    ensures Normalize(Corrected, path) == Err(EILSEQ, "fstat")
    ensures Normalize(Naive, path) == Err(EILSEQ, "normalize")
  {
    assert path[1] == NUL;
  }
}

=== FILE: lexical.dfy ===
/** The normaliser at the level of segments: the reference both byte-level
    scanners are proved against. A path is split into segments, the
    segments are folded into a list of output names by a `..` policy, and
    the names are rendered back into a string. */
module Lexical {
  import opened Bytes
  import opened Results
  import opened Segments

  /** The two copies of the normaliser differ only in how `..` is treated:
      `Corrected` is the policy of `normalize_lua` (src/realpath.c),
      `Naive` that of `lua_realpath_normalize` (src/lua_realpath.h). */
  datatype Policy = Corrected | Naive

  predicate IsAbsolute(path: seq<byte>) {
    |path| > 0 && path[0] == SLASH
  }

  /** What a `..` segment does to the names collected so far. */
  function Parent(policy: Policy, abs: bool, names: seq<seq<byte>>): seq<seq<byte>>
  {
    match policy
    case Corrected =>
      if |names| == 0 then (if abs then names else [DotDotSeg])
      else if names[|names| - 1] != DotDotSeg then names[..|names| - 1]
      else names + [DotDotSeg]
    case Naive =>
      if |names| == 0 then names else names[..|names| - 1]
  }

  /** One input segment: `.` vanishes, `..` goes through the policy, any
      other segment (`.hidden` and `..foo` included) is kept as it is. */
  function Step(policy: Policy, abs: bool, names: seq<seq<byte>>, seg: seq<byte>): seq<seq<byte>>
  {
    if seg == DotSeg then names
    else if seg == DotDotSeg then Parent(policy, abs, names)
    else names + [seg]
  }

  /** Left fold of `Step` over the segments, starting from `names`. */
  function Resolve(policy: Policy, abs: bool, names: seq<seq<byte>>, segs: seq<seq<byte>>): seq<seq<byte>>
    decreases |segs|
  {
    if |segs| == 0 then names
    else Resolve(policy, abs, Step(policy, abs, names, segs[0]), segs[1..])
  }

  /** The names a path resolves to. */
  function Resolved(policy: Policy, path: seq<byte>): seq<seq<byte>>
  {
    Resolve(policy, IsAbsolute(path), [], Split(path))
  }

  /** The output string: an absolute path keeps its root `/`, a relative
      path with nothing left is `.`. */
  function Render(abs: bool, names: seq<seq<byte>>): seq<byte>
  {
    if abs then [SLASH] + Join(names)
    else if |names| == 0 then DotSeg
    else Join(names)
  }

  /** The operation name each copy puts into its EILSEQ error object. */
  function OpName(policy: Policy): string
  {
    match policy
    case Corrected => "fstat"
    case Naive => "normalize"
  }

  /** Reference normaliser. */
  function Normalize(policy: Policy, path: seq<byte>): Outcome
  {
    if !NulFree(path) then Err(EILSEQ, OpName(policy))
    else Ok(Render(IsAbsolute(path), Resolved(policy, path)))
  }
}

=== FILE: lua_realpath.dfy ===
/** `lua_realpath_normalize` of src/lua_realpath.h: the same scanner as
    `normalize_lua` but with the naive `..` policy, which pops a name when
    there is one and otherwise drops the `..`. */
module LuaRealpath {
  import opened Bytes
  import opened Results
  import opened Segments
  import opened Lexical
  import opened Properties
  import Scanner

  method LuaRealpathNormalize(path: seq<byte>) returns (r: Outcome)
    ensures r == Normalize(Naive, path)
    ensures r.Err? <==> !NulFree(path)
    ensures r.Err? ==> r.errno == EILSEQ && r.op == "normalize"
    ensures r.Ok? ==> (WellFormedOutput(r.path)
      && (IsAbsolute(r.path) <==> IsAbsolute(path))
      && DotDotSeg !in Split(r.path))
    ensures r.Ok? ==> Normalize(Naive, r.path) == r
  {
    r := Scanner.Scan(path, Naive);
    if r.Ok? {
      OutputShape(Naive, path);
      Idempotent(Naive, path);
    }
  }
}

=== FILE: properties.dfy ===
/** What the reference normaliser guarantees: the shape of its output,
    idempotence, algebraic laws about separators, `.` and `..`, and how
    the two `..` policies relate. */
module Properties {
  import opened Bytes
  import opened Results
  import opened Segments
  import opened Lexical

  /** Names fit for output: real segments, NUL-free, never `.`. */
  ghost predicate Clean(names: seq<seq<byte>>) {
    forall i :: 0 <= i < |names| ==> IsSegment(names[i]) && NulFree(names[i]) && names[i] != DotSeg
  }

  /** Every retained `..` comes before every other name. */
  ghost predicate ParentsLead(names: seq<seq<byte>>) {
    forall i, j :: 0 <= i < j < |names| && names[j] == DotDotSeg ==> names[i] == DotDotSeg
  }

  /** The names the policy can leave behind: clean, `..` only in front,
      and `..` only for a relative path under the corrected policy. */
  ghost predicate Normal(policy: Policy, abs: bool, names: seq<seq<byte>>) {
    Clean(names) && ParentsLead(names) && (DotDotSeg in names ==> policy == Corrected && !abs)
  }

  /** What every successful result looks like. */
  ghost predicate WellFormedOutput(out: seq<byte>) {
    |out| > 0 && NulFree(out) && NoDoubleSlash(out)
    && (out[|out| - 1] == SLASH ==> out == [SLASH])
    && (DotSeg in Split(out) ==> out == DotSeg)
  }

  /** The input segments with every `.` removed. */
  function WithoutDots(segs: seq<seq<byte>>): seq<seq<byte>>
  {
    if |segs| == 0 then []
    else (if segs[0] == DotSeg then [] else [segs[0]]) + WithoutDots(segs[1..])
  }

  lemma StepNormal(policy: Policy, abs: bool, names: seq<seq<byte>>, seg: seq<byte>)
    requires Normal(policy, abs, names)
    requires IsSegment(seg) && NulFree(seg)
    ensures Normal(policy, abs, Step(policy, abs, names, seg))
  {
    if seg == DotDotSeg && |names| > 0 {
      var init := names[..|names| - 1];
      assert forall x :: x in init ==> x in names;
      if policy == Corrected && names[|names| - 1] == DotDotSeg {
        var r := names + [DotDotSeg];
        assert forall i :: 0 <= i < |names| ==> names[i] == DotDotSeg;
        assert forall i :: 0 <= i < |r| ==> r[i] == DotDotSeg;
      }
    } else if seg != DotSeg && seg != DotDotSeg {
      var r := names + [seg];
      assert forall i :: 0 <= i < |names| ==> r[i] == names[i];
    }
  }

  /** Resolving clean segments keeps the names normal. */
  lemma {:induction false} ResolveNormal(policy: Policy, abs: bool, names: seq<seq<byte>>, segs: seq<seq<byte>>)
    requires Normal(policy, abs, names)
    requires forall i :: 0 <= i < |segs| ==> IsSegment(segs[i]) && NulFree(segs[i])
    ensures Normal(policy, abs, Resolve(policy, abs, names, segs))
    decreases |segs|
  {
    if |segs| > 0 {
      StepNormal(policy, abs, names, segs[0]);
      ResolveNormal(policy, abs, Step(policy, abs, names, segs[0]), segs[1..]);
    }
  }

  /** The names a NUL-free path resolves to are normal. */
  lemma ResolvedNormal(policy: Policy, path: seq<byte>)
    requires NulFree(path)
    ensures Normal(policy, IsAbsolute(path), Resolved(policy, path))
  {
    ResolveNormal(policy, IsAbsolute(path), [], Split(path));
  }

  /** Resolving a concatenation is resolving one part after the other. */
  lemma {:induction false} ResolveAppend(policy: Policy, abs: bool, names: seq<seq<byte>>,
                                         x: seq<seq<byte>>, y: seq<seq<byte>>)
    ensures Resolve(policy, abs, names, x + y)
         == Resolve(policy, abs, Resolve(policy, abs, names, x), y)
    decreases |x|
  {
    if |x| == 0 {
      assert x + y == y;
    } else {
      assert (x + y)[1..] == x[1..] + y;
      ResolveAppend(policy, abs, Step(policy, abs, names, x[0]), x[1..], y);
    }
  }

  /** Rendering normal names: the output is well formed, anchored exactly
      when the path is absolute, and splits back into the names. */
  lemma RenderShape(policy: Policy, abs: bool, names: seq<seq<byte>>)
    requires Normal(policy, abs, names)
    ensures var out := Render(abs, names);
      WellFormedOutput(out)
      && (IsAbsolute(out) <==> abs)
      && Split(out) == (if !abs && |names| == 0 then [DotSeg] else names)
      && (out == DotSeg <==> !abs && |names| == 0)
  {
    var j := Join(names);
    JoinShape(names);
    JoinNulFree(names);
    SplitJoin(names);
    var out := Render(abs, names);
    if abs {
      assert out[1..] == j;
      assert Split(out) == names;
      forall i | 0 <= i < |out| - 1
        ensures out[i] != SLASH || out[i + 1] != SLASH
      {
        if i == 0 {
          assert out[1] == j[0];
        } else {
          assert out[i] == j[i - 1] && out[i + 1] == j[i];
        }
      }
      if |names| > 0 {
        assert out[|out| - 1] == j[|j| - 1];
      }
    } else if |names| == 0 {
      SplitSingle(DotSeg);
    } else {
      assert out == j;
    }
  }

  /** Everything a successful normalisation returns is well formed and
      keeps the anchor of its input; the corrected policy keeps retained
      `..` in front, and neither policy leaves a `..` under a root. */
  lemma OutputShape(policy: Policy, path: seq<byte>)
    requires Normalize(policy, path).Ok?
    ensures var out := Normalize(policy, path).path;
      WellFormedOutput(out)
      && (IsAbsolute(out) <==> IsAbsolute(path))
      && ParentsLead(Split(out))
      && (IsAbsolute(path) || policy == Naive ==> DotDotSeg !in Split(out))
      && (out == DotSeg <==> !IsAbsolute(path) && Resolved(policy, path) == [])
  {
    ResolvedNormal(policy, path);
    RenderShape(policy, IsAbsolute(path), Resolved(policy, path));
  }

  /** Normalising an output again changes nothing. */
  lemma Idempotent(policy: Policy, path: seq<byte>)
    requires Normalize(policy, path).Ok?
    ensures Normalize(policy, Normalize(policy, path).path) == Normalize(policy, path)
  {
    var abs := IsAbsolute(path);
    var names := Resolved(policy, path);
    var out := Render(abs, names);
    ResolvedNormal(policy, path);
    RenderShape(policy, abs, names);
    if !abs && |names| == 0 {
      var one: seq<seq<byte>> := [DotSeg];
      assert Split(out) == one && !IsAbsolute(out);
      assert one[1..] == [];
      assert Resolve(policy, false, [], one) == Resolve(policy, false, Step(policy, false, [], DotSeg), []);
      assert Resolved(policy, out) == [];
    } else {
      ResolveIdentity(policy, abs, [], names);
      assert Resolved(policy, out) == names;
    }
  }

  /** Normal names resolve to themselves. */
  lemma {:induction false} ResolveIdentity(policy: Policy, abs: bool, acc: seq<seq<byte>>, rest: seq<seq<byte>>)
    requires Normal(policy, abs, acc + rest)
    ensures Resolve(policy, abs, acc, rest) == acc + rest
    decreases |rest|
  {
    var all := acc + rest;
    if |rest| == 0 {
      assert all == acc;
    } else {
      var seg := rest[0];
      assert seg == all[|acc|];
      assert seg != DotSeg;
      if seg == DotDotSeg {
        assert DotDotSeg in all;
        assert forall i :: 0 <= i < |acc| ==> acc[i] == all[i] == DotDotSeg;
        if |acc| > 0 {
          assert acc[|acc| - 1] == DotDotSeg;
        }
      }
      assert Step(policy, abs, acc, seg) == acc + [seg];
      assert acc + [seg] + rest[1..] == all;
      ResolveIdentity(policy, abs, acc + [seg], rest[1..]);
    }
  }

  lemma NulFreeConcat(a: seq<byte>, b: seq<byte>)
    ensures NulFree(a + b) <==> NulFree(a) && NulFree(b)
  {
    if NulFree(a + b) {
      assert forall i :: 0 <= i < |a| ==> a[i] == (a + b)[i];
      assert forall i :: 0 <= i < |b| ==> b[i] == (a + b)[|a| + i];
    } else {
      var i :| 0 <= i < |a + b| && (a + b)[i] == NUL;
      if i < |a| {
        assert a[i] == NUL;
      } else {
        assert b[i - |a|] == NUL;
      }
    }
  }

  /** A run of two separators reads as one. */
  lemma SlashRunCollapses(policy: Policy, a: seq<byte>, b: seq<byte>)
    ensures Normalize(policy, a + [SLASH, SLASH] + b) == Normalize(policy, a + [SLASH] + b)
  {
    var long := a + [SLASH, SLASH] + b;
    var short := a + [SLASH] + b;
    assert long == a + [SLASH] + ([SLASH] + b);
    NulFreeConcat(a + [SLASH], [SLASH] + b);
    NulFreeConcat(a + [SLASH], b);
    NulFreeConcat([SLASH], b);
    SplitAppend(a, [SLASH] + b);
    SplitAppend(a, b);
    assert ([SLASH] + b)[1..] == b;
    assert IsAbsolute(long) == IsAbsolute(short);
  }

  /** A `.` segment between two separators has no effect. */
  lemma DotSegmentVanishes(policy: Policy, a: seq<byte>, b: seq<byte>)
    ensures Normalize(policy, a + [SLASH, DOT, SLASH] + b) == Normalize(policy, a + [SLASH] + b)
  {
    var long := a + [SLASH, DOT, SLASH] + b;
    var short := a + [SLASH] + b;
    assert long == a + [SLASH] + ([DOT] + [SLASH] + b);
    NulFreeConcat(a + [SLASH], [DOT] + [SLASH] + b);
    NulFreeConcat(a + [SLASH], b);
    NulFreeConcat([DOT, SLASH], b);
    assert [DOT] + [SLASH] + b == [DOT, SLASH] + b;
    SplitAppend(a, [DOT] + [SLASH] + b);
    SplitAppend([DOT], b);
    SplitSingle(DotSeg);
    SplitAppend(a, b);
    assert IsAbsolute(long) == IsAbsolute(short);
    var abs := IsAbsolute(long);
    ResolveAppend(policy, abs, [], Split(a), [DotSeg] + Split(b));
    ResolveAppend(policy, abs, [], Split(a), Split(b));
    assert ([DotSeg] + Split(b))[1..] == Split(b);
  }

  /** The segments of `a/n/..` are those of `a`, then `n` and `..`. */
  lemma SplitNameParent(a: seq<byte>, n: seq<byte>)
    requires IsSegment(n)
    ensures Split(a + [SLASH] + n + [SLASH, DOT, DOT]) == Split(a) + [n, DotDotSeg]
  {
    var tail := n + [SLASH] + DotDotSeg;
    assert a + [SLASH] + n + [SLASH, DOT, DOT] == a + [SLASH] + tail;
    SplitAppend(a, tail);
    SplitAppend(n, DotDotSeg);
    SplitSingle(n);
    SplitSingle(DotDotSeg);
  }

  /** An ordinary name followed by `..` leaves the names as they were,
      under either policy. */
  lemma ResolveNameParent(policy: Policy, abs: bool, names: seq<seq<byte>>, n: seq<byte>)
    requires n != DotSeg && n != DotDotSeg
    ensures Resolve(policy, abs, names, [n, DotDotSeg]) == names
  {
    var pushed := names + [n];
    assert Step(policy, abs, names, n) == pushed;
    assert pushed[..|pushed| - 1] == names;
    assert Parent(policy, abs, pushed) == names;
    assert [n, DotDotSeg][1..] == [DotDotSeg];
    assert Resolve(policy, abs, pushed, [DotDotSeg]) == Parent(policy, abs, pushed);
  }

  /** `n/..` cancels: an ordinary name followed by `..` leaves the path as
      it was before the name. */
  lemma ParentCancelsName(policy: Policy, a: seq<byte>, n: seq<byte>)
    requires |a| > 0
    requires IsSegment(n) && NulFree(n) && n != DotSeg && n != DotDotSeg
    ensures Normalize(policy, a + [SLASH] + n + [SLASH, DOT, DOT]) == Normalize(policy, a)
  {
    var long := a + [SLASH] + n + [SLASH, DOT, DOT];
    assert long == a + ([SLASH] + n + [SLASH] + DotDotSeg);
    assert long[0] == a[0];
    NulFreeConcat(a, [SLASH] + n + [SLASH] + DotDotSeg);
    NulFreeConcat([SLASH] + n, [SLASH] + DotDotSeg);
    NulFreeConcat([SLASH], n);
    SplitNameParent(a, n);
    var abs := IsAbsolute(a);
    ResolveAppend(policy, abs, [], Split(a), [n, DotDotSeg]);
    ResolveNameParent(policy, abs, Resolve(policy, abs, [], Split(a)), n);
  }

  lemma {:induction false} ResolveWithoutParents(policy: Policy, abs: bool, names: seq<seq<byte>>, segs: seq<seq<byte>>)
    requires DotDotSeg !in segs
    ensures Resolve(policy, abs, names, segs) == names + WithoutDots(segs)
    decreases |segs|
  {
    if |segs| > 0 {
      assert DotDotSeg !in segs[1..] by {
        assert forall x :: x in segs[1..] ==> x in segs;
      }
      ResolveWithoutParents(policy, abs, Step(policy, abs, names, segs[0]), segs[1..]);
    }
  }

  /** Without `..` segments, normalisation drops exactly the `.` segments
      and keeps every other segment, `.hidden` and `..foo` included, as
      written and in order. */
  lemma OrdinaryNamesKept(policy: Policy, path: seq<byte>)
    requires NulFree(path) && DotDotSeg !in Split(path)
    ensures Normalize(policy, path) == Ok(Render(IsAbsolute(path), WithoutDots(Split(path))))
  {
    ResolveWithoutParents(policy, IsAbsolute(path), [], Split(path));
    assert Resolved(policy, path) == WithoutDots(Split(path));
  }

  /** Under the corrected policy a retained `..` is never removed again. */
  lemma {:induction false} ParentsPersist(abs: bool, names: seq<seq<byte>>, segs: seq<seq<byte>>)
    requires DotDotSeg in names
    ensures DotDotSeg in Resolve(Corrected, abs, names, segs)
    decreases |segs|
  {
    if |segs| > 0 {
      var next := Step(Corrected, abs, names, segs[0]);
      var k :| 0 <= k < |names| && names[k] == DotDotSeg;
      if segs[0] == DotDotSeg && |names| > 0 && names[|names| - 1] != DotDotSeg {
        assert next[k] == DotDotSeg;
      } else if segs[0] != DotSeg && segs[0] != DotDotSeg {
        assert next[k] == DotDotSeg;
      }
      assert DotDotSeg in next;
      ParentsPersist(abs, next, segs[1..]);
    }
  }

  lemma {:induction false} PoliciesAgreeWithoutParents(abs: bool, names: seq<seq<byte>>, segs: seq<seq<byte>>)
    requires DotDotSeg !in names
    requires DotDotSeg !in Resolve(Corrected, abs, names, segs)
    ensures Resolve(Naive, abs, names, segs) == Resolve(Corrected, abs, names, segs)
    decreases |segs|
  {
    if |segs| > 0 {
      var c := Step(Corrected, abs, names, segs[0]);
      if DotDotSeg in c {
        ParentsPersist(abs, c, segs[1..]);
      }
      if |names| > 0 {
        assert names[|names| - 1] in names;
        assert forall x :: x in names[..|names| - 1] ==> x in names;
      }
      assert Step(Naive, abs, names, segs[0]) == c;
      PoliciesAgreeWithoutParents(abs, c, segs[1..]);
    }
  }

  /** The two copies give the same result on a NUL-free path exactly when
      the corrected result keeps no `..` segment. */
  lemma PoliciesAgreeIff(path: seq<byte>)
    requires NulFree(path)
    ensures Normalize(Naive, path).path == Normalize(Corrected, path).path
        <==> DotDotSeg !in Split(Normalize(Corrected, path).path)
  {
    var abs := IsAbsolute(path);
    var c := Resolved(Corrected, path);
    var n := Resolved(Naive, path);
    ResolvedNormal(Corrected, path);
    ResolvedNormal(Naive, path);
    RenderShape(Corrected, abs, c);
    RenderShape(Naive, abs, n);
    if DotDotSeg !in c {
      PoliciesAgreeWithoutParents(abs, [], Split(path));
    } else {
      assert DotDotSeg !in n;
      assert Split(Render(abs, c)) == c;
    }
  }

  /** On absolute paths the two copies always agree. */
  lemma PoliciesAgreeOnAbsolute(path: seq<byte>)
    requires NulFree(path) && IsAbsolute(path)
    ensures Normalize(Naive, path) == Normalize(Corrected, path)
  {
    ResolvedNormal(Corrected, path);
    PoliciesAgreeWithoutParents(IsAbsolute(path), [], Split(path));
  }
}

=== FILE: realpath.dfy ===
/** The entry points of src/realpath.c: `normalize_lua`, the corrected
    normaliser, and `realpath_lua`, which combines it with realpath(3)
    under the `normalize` and `resolve` flags. realpath(3) itself is a
    parameter: the model fixes what it is given and what becomes of its
    answer, not how it walks the file system. */
module Realpath {
  import opened Bytes
  import opened Results
  import opened Segments
  import opened Lexical
  import opened Properties
  import Scanner

  /** The answer of realpath(3): the resolved path as a C string, or the
      errno it set. */
  datatype OsResult = Canonical(path: seq<byte>) | OsError(errno: int)

  /** `normalize_lua`: the byte scanner under the corrected `..` policy. */
  method NormalizeLua(path: seq<byte>) returns (r: Outcome)
    ensures r == Normalize(Corrected, path)
    ensures r.Err? <==> !NulFree(path)
    ensures r.Err? ==> r.errno == EILSEQ && r.op == "fstat"
    ensures r.Ok? ==> (WellFormedOutput(r.path)
      && (IsAbsolute(r.path) <==> IsAbsolute(path))
      && ParentsLead(Split(r.path))
      && (IsAbsolute(path) ==> DotDotSeg !in Split(r.path)))
    ensures r.Ok? ==> Normalize(Corrected, r.path) == r
  {
    r := Scanner.Scan(path, Corrected);
    if r.Ok? {
      OutputShape(Corrected, path);
      Idempotent(Corrected, path);
    }
  }

  /** What `realpath_lua` makes of the answer of realpath(3): the string it
      pushes ends at the first NUL, a failure carries the label
      "realpath". */
  function FromOs(o: OsResult): (r: Outcome)
    ensures o.Canonical? <==> r.Ok?
    ensures r.Ok? ==> NulFree(r.path) && (NulFree(o.path) ==> r.path == o.path)
    ensures r.Ok? ==> |r.path| <= |o.path| && r.path == o.path[..|r.path|]
    ensures r.Ok? && |r.path| < |o.path| ==> o.path[|r.path|] == NUL
    ensures r.Err? ==> r.errno == o.errno && r.op == "realpath"
  {
    match o
    case Canonical(p) => Ok(CString(p))
    case OsError(e) => Err(e, "realpath")
  }

  /** `realpath_lua(path, normalize = false, resolve = true)`. Without
      `resolve` the path is only normalised; with it, realpath(3) is given
      either the normalised path or, without `normalize`, the argument as
      a C string, that is, cut at its first NUL. */
  function RealpathLua(path: seq<byte>, normalize: Option<bool>, resolve: Option<bool>,
                       realpath: seq<byte> -> OsResult): (r: Outcome)
    ensures r.Err? ==> (r.op == "fstat" && r.errno == EILSEQ) || r.op == "realpath"
    ensures r.Err? && r.op == "fstat" ==> normalize.GetOr(false) || !resolve.GetOr(true)
    ensures !resolve.GetOr(true) && r.Ok? ==> WellFormedOutput(r.path)
  {
    if !resolve.GetOr(true) then
      var n := Normalize(Corrected, path);
      if n.Ok? then OutputShape(Corrected, path); n else n
    else if normalize.GetOr(false) then
      var n := Normalize(Corrected, path);
      if n.Err? then n else FromOs(realpath(n.path))
    else FromOs(realpath(CString(path)))
  }

  /** Leaving out both flags is asking for resolution without
      normalisation. */
  lemma Defaults(path: seq<byte>, realpath: seq<byte> -> OsResult)
    ensures RealpathLua(path, None, None, realpath) == RealpathLua(path, Some(false), Some(true), realpath)
    ensures RealpathLua(path, None, None, realpath) == FromOs(realpath(CString(path)))
  {
  }

  /** With `resolve` off the `normalize` flag does not matter, realpath(3)
      is never asked, and the result is that of `normalize_lua`. */
  lemma NormalizeOnly(path: seq<byte>, normalize: Option<bool>, f: seq<byte> -> OsResult, g: seq<byte> -> OsResult)
    ensures RealpathLua(path, normalize, Some(false), f) == Normalize(Corrected, path)
    ensures RealpathLua(path, normalize, Some(false), f) == RealpathLua(path, Some(true), Some(false), g)
  {
  }

  /** When normalisation is asked for and fails, realpath(3) is never
      consulted: the result is the EILSEQ failure whatever it would say. */
  lemma NormalizeFailureShortCircuits(path: seq<byte>, f: seq<byte> -> OsResult, g: seq<byte> -> OsResult)
    requires !NulFree(path)
    ensures RealpathLua(path, Some(true), Some(true), f) == Err(EILSEQ, "fstat")
    ensures RealpathLua(path, Some(true), Some(true), f) == RealpathLua(path, Some(true), Some(true), g)
  {
  }

  /** Normalising then resolving is resolving the normalised path: the
      string realpath(3) receives is exactly the output of
      `normalize_lua`, which has no NUL to cut it short. */
  lemma NormalizeThenResolve(path: seq<byte>, realpath: seq<byte> -> OsResult)
    requires NulFree(path)
    ensures Normalize(Corrected, path).Ok?
    ensures RealpathLua(path, Some(true), Some(true), realpath)
      == RealpathLua(Normalize(Corrected, path).path, Some(false), Some(true), realpath)
  {
    OutputShape(Corrected, path);
  }

  /** Without normalisation an embedded NUL is no error: realpath(3) sees
      only the bytes before it. */
  lemma ResolveCutsAtNul(path: seq<byte>, realpath: seq<byte> -> OsResult)
    ensures RealpathLua(path, Some(false), Some(true), realpath)
      == RealpathLua(CString(path), Some(false), Some(true), realpath)
  {
    assert CString(CString(path)) == CString(path);
  }
}

=== FILE: results.dfy ===
/** Values the Lua functions hand back to their caller: a path string, or
    `nil` plus an error object carrying an errno and the name of the failing operation. */
module Results {
  import opened Bytes

  /** EILSEQ, "illegal byte sequence", as numbered on Linux. */
  const EILSEQ: int := 84

  datatype Option<T> = None | Some(value: T)
  {
    /** The value when given, `default` when absent: how an optional Lua
        argument is read. */
    function GetOr(default: T): T
    {
      match this
      case Some(v) => v
      case None => default
    }
  }

  datatype Outcome = Ok(path: seq<byte>) | Err(errno: int, op: string)
}

=== FILE: scanner.dfy ===
/** The byte-level scanner shared by `normalize_lua` (src/realpath.c) and
    `lua_realpath_normalize` (src/lua_realpath.h). The labels and `goto`s
    of the C code become the phases of one loop; the token stack is a
    sequence of strings; the `..` policy is the only difference between
    the two copies and is a parameter. */
module Scanner {
  import opened Bytes
  import opened Results
  import opened Segments
  import opened Lexical
  import opened TokenStack

  /** Where the C control flow is: `CHECK_FIRST`, `ADD_SEGMENT`, the
      `case '.'` arm, the `/` search loop, and past the search. */
  datatype Phase = CheckFirst | AddSegment | DotSegment | SearchSlash | Done

  function Rank(phase: Phase): nat
  {
    match phase
    case CheckFirst => 3
    case DotSegment => 2
    case SearchSlash => 1
    case AddSegment => 0
    case Done => 0
  }

  /** Advance past a run of `/`; index `|path|` reads as the terminating
      NUL, so the run ends there at the latest. */
  method SkipSlashes(path: seq<byte>, p: nat) returns (q: nat)
    requires p <= |path|
    ensures p <= q <= |path|
    ensures forall i :: p <= i < q ==> path[i] == SLASH
    ensures Peek(path, q) != SLASH
  {
    q := p;
    while Peek(path, q) == SLASH
      invariant p <= q <= |path|
      invariant forall i :: p <= i < q ==> path[i] == SLASH
      decreases |path| - q
    {
      q := q + 1;
    }
  }

  /** Advance over the bytes of a segment: stop at the next `/` or at the
      first NUL. */
  method FindSlashOrNul(path: seq<byte>, p: nat) returns (q: nat)
    requires p <= |path|
    ensures p <= q <= |path|
    ensures forall i :: p <= i < q ==> path[i] != SLASH && path[i] != NUL
    ensures Peek(path, q) == SLASH || Peek(path, q) == NUL
  {
    q := p;
    while Peek(path, q) != NUL && Peek(path, q) != SLASH
      invariant p <= q <= |path|
      invariant forall i :: p <= i < q ==> path[i] != SLASH && path[i] != NUL
      decreases |path| - q
    {
      q := q + 1;
    }
  }

  /** A segment ends at index `i` of `s`. */
  predicate EndsSegment(s: seq<byte>, i: nat)
    requires i <= |s|
  {
    i == |s| || s[i] == SLASH
  }

  /** The lookahead of `case '.'`: a `.` or a `..` segment starts at `p`. */
  predicate DotSegmentAt(s: seq<byte>, p: nat)
    requires p <= |s|
  {
    p < |s| && s[p] == DOT
    && (EndsSegment(s, p + 1) || (p + 1 < |s| && s[p + 1] == DOT && EndsSegment(s, p + 2)))
  }

  /** The segment `s[head..p]` is pending: it is whole, and it is neither
      `.` nor `..`. */
  ghost predicate Pending(s: seq<byte>, head: nat, p: nat)
  {
    head < p <= |s| && EndsSegment(s, p)
    && (forall i :: head <= i < p ==> s[i] != SLASH)
    && s[head..p] != DotSeg && s[head..p] != DotDotSeg
  }

  /** The scanner's registers: the phase, the cursor `p`, the start
      `head` of the pending segment, and the token stack. */
  datatype ScanState = ScanState(phase: Phase, p: nat, head: nat, stack: Stack)

  /** The scan invariant, over the scanned text `s` (the input up to its
      first NUL): the stack is the token form of `names`, which together
      with the segments from `head` on resolve to `target`; the rest
      depends on the phase. */
  ghost predicate Inv(policy: Policy, s: seq<byte>, target: seq<seq<byte>>,
                      st: ScanState, names: seq<seq<byte>>)
  {
    var abs := IsAbsolute(s);
    var p, head := st.p, st.head;
    // Bound to a name so that callers see the invariant as one fact
    // rather than as its separate conjuncts, which keeps proofs small.
    var holds :=
    NulFree(s)
    && head <= p <= |s|
    && (head == 0 ==> names == [])
    && st.stack == Tokens(abs && head > 0, names)
    && Resolve(policy, abs, names, Split(s[head..])) == target
    && match st.phase
       case CheckFirst => head == p && (p > 0 ==> Peek(s, p) != SLASH)
       case DotSegment => head == p && p < |s| && s[p] == DOT
       case AddSegment =>
         p < |s| && s[p] == SLASH && (head == p ==> p == 0) && (head < p ==> Pending(s, head, p))
       case SearchSlash => head == p && Peek(s, p) != SLASH && !DotSegmentAt(s, p)
       case Done => p == |s| && (head < p ==> Pending(s, head, p));
    holds
  }

  /** Every transition moves the cursor forward or moves to a phase of
      lower rank at the same cursor. */
  predicate Progress(a: ScanState, b: ScanState)
  {
    b.p > a.p || (b.p == a.p && Rank(b.phase) < Rank(a.phase))
  }

  /** Scanning can resume at `p`: the text before it is resolved into
      `names`, which the stack holds under the path's own root flag. */
  ghost predicate Resumable(policy: Policy, s: seq<byte>, target: seq<seq<byte>>,
                            p: nat, stack: Stack, names: seq<seq<byte>>)
  {
    // Bound to a name for the same reason as in `Inv`.
    var holds :=
      0 < p <= |s|
      && stack == Tokens(IsAbsolute(s), names)
      && Resolve(policy, IsAbsolute(s), names, Split(s[p..])) == target;
    holds
  }

  /** A pending segment is the next segment and is kept as a name. */
  lemma PendingStep(policy: Policy, s: seq<byte>, abs: bool, names: seq<seq<byte>>, head: nat, p: nat)
    requires Pending(s, head, p)
    ensures Resolve(policy, abs, names, Split(s[head..]))
         == Resolve(policy, abs, names + [s[head..p]], Split(s[p..]))
  {
    SplitAt(s, head, p);
  }

  /** `CHECK_FIRST`: dispatch on the byte under the cursor. */
  method CheckFirstStep(path: seq<byte>, ghost s: seq<byte>, policy: Policy, st: ScanState,
                        ghost target: seq<seq<byte>>, ghost names: seq<seq<byte>>)
    returns (st': ScanState)
    requires s == CString(path)
    requires st.phase == CheckFirst
    requires Inv(policy, s, target, st, names)
    ensures Inv(policy, s, target, st', names)
    ensures Progress(st, st')
  {
    PeekCString(path, st.p);
    var b := Peek(path, st.p);
    if b == SLASH {
      st' := st.(phase := AddSegment);
    } else if b == DOT {
      st' := st.(phase := DotSegment);
    } else {
      st' := st.(phase := SearchSlash);
    }
  }

  /** `ADD_SEGMENT` up to the slashes: the pending segment, if there is
      one, and a "/" are pushed, and the stack is again the token form of
      the names, now under the path's own root flag. */
  lemma PushPending(policy: Policy, s: seq<byte>, target: seq<seq<byte>>, st: ScanState, names: seq<seq<byte>>)
    requires st.phase == AddSegment
    requires Inv(policy, s, target, st, names)
    ensures st.p < |s| && s[st.p] == SLASH
    ensures var abs := IsAbsolute(s);
      var names' := if st.head < st.p then names + [s[st.head..st.p]] else names;
      var stack' := if st.head < st.p then st.stack + [s[st.head..st.p], SlashToken] else st.stack + [SlashToken];
      stack' == Tokens(abs, names')
      && Resolve(policy, abs, names', Split(s[st.p..])) == target
  {
    var abs := IsAbsolute(s);
    var p, head := st.p, st.head;
    if head < p {
      assert s[head] != SLASH;
      assert abs && head > 0 <==> abs;
      PendingStep(policy, s, abs, names, head, p);
      TokensPush(abs, names, s[head..p]);
    } else {
      assert s[0..] == s;
    }
  }

  /** `ADD_SEGMENT` after the slashes: go on as `case '.'` when a `.`
      follows, otherwise search for the next `/`. */
  lemma AfterSeparator(policy: Policy, path: seq<byte>, s: seq<byte>, target: seq<seq<byte>>,
                       p: nat, q: nat, stack: Stack, names: seq<seq<byte>>)
    requires s == CString(path)
    requires p < |s| && s[p] == SLASH && p <= q <= |path|
    requires forall i :: p <= i < q ==> path[i] == SLASH
    requires Peek(path, q) != SLASH
    requires stack == Tokens(IsAbsolute(s), names)
    requires Resolve(policy, IsAbsolute(s), names, Split(s[p..])) == target
    ensures p < q <= |s|
    ensures Inv(policy, s, target, ScanState(if Peek(path, q) == DOT then DotSegment else SearchSlash, q, q, stack), names)
  {
    RunInCString(path, p, q);
    PeekCString(path, q);
    SplitSkip(s, p, q);
  }

  /** The entries `ADD_SEGMENT` pushes: the pending segment, if there is
      one, then "/". */
  function Pushed(path: seq<byte>, head: nat, p: nat): Stack
    requires head <= p <= |path|
  {
    if head < p then [path[head..p], SlashToken] else [SlashToken]
  }

  /** The names `ADD_SEGMENT` adds: the pending segment, if there is one. */
  function PushedNames(path: seq<byte>, head: nat, p: nat): seq<seq<byte>>
    requires head <= p <= |path|
  {
    if head < p then [path[head..p]] else []
  }

  /** `ADD_SEGMENT` as a whole, once the run of slashes from `st.p` to `q`
      has been skipped. */
  lemma AddSegmentSound(policy: Policy, path: seq<byte>, s: seq<byte>, target: seq<seq<byte>>,
                        st: ScanState, names: seq<seq<byte>>, q: nat)
    requires s == CString(path)
    requires st.phase == AddSegment
    requires Inv(policy, s, target, st, names)
    requires st.p <= q <= |path|
    requires forall i :: st.p <= i < q ==> path[i] == SLASH
    requires Peek(path, q) != SLASH
    ensures st.head <= st.p < q <= |s|
    ensures Inv(policy, s, target,
                ScanState(if Peek(path, q) == DOT then DotSegment else SearchSlash, q, q,
                          st.stack + Pushed(path, st.head, st.p)),
                names + PushedNames(path, st.head, st.p))
  {
    var p, head := st.p, st.head;
    var abs := IsAbsolute(s);
    PushPending(policy, s, target, st, names);
    var stack' := st.stack + Pushed(path, head, p);
    var names' := names + PushedNames(path, head, p);
    if head < p {
      SliceCString(path, head, p);
      assert stack' == st.stack + [s[head..p], SlashToken];
      assert names' == names + [s[head..p]];
    } else {
      assert stack' == st.stack + [SlashToken];
      assert names' == names;
    }
    assert stack' == Tokens(abs, names');
    assert Resolve(policy, abs, names', Split(s[p..])) == target;
    AfterSeparator(policy, path, s, target, p, q, stack', names');
  }

  /** `ADD_SEGMENT`: push the pending segment (if any) and a "/", skip the
      run of slashes, then go on as `case '.'` or search for the next `/`. */
  method AddSegmentStep(path: seq<byte>, ghost s: seq<byte>, policy: Policy, st: ScanState,
                        ghost target: seq<seq<byte>>, ghost names: seq<seq<byte>>)
    returns (st': ScanState, ghost names': seq<seq<byte>>)
    requires s == CString(path)
    requires st.phase == AddSegment
    requires Inv(policy, s, target, st, names)
    ensures Inv(policy, s, target, st', names')
    ensures Progress(st, st')
    ensures st.p < st'.p && st'.head == st'.p && SlashRunTo(path, st.p, st'.p)
    ensures st'.stack == st.stack + Pushed(path, st.head, st.p)
    ensures names' == names + PushedNames(path, st.head, st.p)
    ensures st'.phase == (if Peek(path, st'.p) == DOT then DotSegment else SearchSlash)
  {
    assert st.head <= st.p <= |path|;
    var q := SkipSlashes(path, st.p);
    AddSegmentSound(policy, path, s, target, st, names, q);
    names' := names + PushedNames(path, st.head, st.p);
    var phase := if Peek(path, q) == DOT then DotSegment else SearchSlash;
    st' := ScanState(phase, q, q, st.stack + Pushed(path, st.head, st.p));
  }

  /** `q` ends the run of `/` that starts at `p`: every byte between is a
      `/`, and the byte at `q` (the end read as NUL) is not. */
  predicate SlashRunTo(path: seq<byte>, p: nat, q: nat)
  {
    p <= q <= |path| && (forall i :: p <= i < q ==> path[i] == SLASH) && Peek(path, q) != SLASH
  }

  /** Re-entering `CHECK_FIRST` after a `.` or `..` segment and the run of
      slashes after it. */
  lemma Restart(policy: Policy, path: seq<byte>, s: seq<byte>, target: seq<seq<byte>>,
                p: nat, q: nat, stack: Stack, names: seq<seq<byte>>)
    requires s == CString(path)
    requires Resumable(policy, s, target, p, stack, names)
    requires p <= q <= |path|
    requires forall i :: p <= i < q ==> path[i] == SLASH
    requires Peek(path, q) != SLASH
    ensures Inv(policy, s, target, ScanState(CheckFirst, q, q, stack), names)
  {
    RunInCString(path, p, q);
    PeekCString(path, q);
    SplitSkip(s, p, q);
  }

  /** The `.` branch of `case '.'`: the segment vanishes. */
  lemma DotStep(policy: Policy, path: seq<byte>, s: seq<byte>, target: seq<seq<byte>>,
                st: ScanState, names: seq<seq<byte>>)
    requires s == CString(path)
    requires st.phase == DotSegment
    requires Inv(policy, s, target, st, names)
    requires Peek(path, st.p + 1) == SLASH || Peek(path, st.p + 1) == NUL
    ensures Resumable(policy, s, target, st.p + 1, st.stack, names)
  {
    var p, abs := st.p, IsAbsolute(s);
    assert p < |s| && s[p] == DOT && st.stack == Tokens(abs && p > 0, names)
      && Resolve(policy, abs, names, Split(s[p..])) == target;
    assert abs && p > 0 <==> abs;
    PeekCString(path, p + 1);
    SplitAt(s, p, p + 1);
    assert s[p..p + 1] == DotSeg;
    var rest := Split(s[p + 1..]);
    assert ([DotSeg] + rest)[1..] == rest;
    assert Step(policy, abs, names, DotSeg) == names;
    assert Resolve(policy, abs, names, [DotSeg] + rest) == Resolve(policy, abs, names, rest);
  }

  /** The `..` branch of `case '.'`: the copy's `..` rule on the stack is
      the segment-level policy on the names. */
  lemma DotDotStep(policy: Policy, path: seq<byte>, s: seq<byte>, target: seq<seq<byte>>,
                   st: ScanState, names: seq<seq<byte>>)
    requires s == CString(path)
    requires st.phase == DotSegment
    requires Inv(policy, s, target, st, names)
    requires Peek(path, st.p + 1) == DOT
    requires Peek(path, st.p + 2) == SLASH || Peek(path, st.p + 2) == NUL
    ensures Resumable(policy, s, target, st.p + 2, ParentOp(policy, st.stack), Parent(policy, IsAbsolute(s), names))
  {
    var p, abs := st.p, IsAbsolute(s);
    PeekCString(path, p + 1);
    PeekCString(path, p + 2);
    assert abs && p > 0 <==> abs;
    SplitAt(s, p, p + 2);
    assert s[p..p + 2] == DotDotSeg;
    TokensParent(policy, abs, names);
  }

  /** A name that merely starts with `.` is searched like any other. */
  lemma DotName(policy: Policy, path: seq<byte>, s: seq<byte>, target: seq<seq<byte>>,
                st: ScanState, names: seq<seq<byte>>)
    requires s == CString(path)
    requires st.phase == DotSegment
    requires Inv(policy, s, target, st, names)
    requires Peek(path, st.p + 1) != SLASH && Peek(path, st.p + 1) != NUL
    requires Peek(path, st.p + 1) == DOT ==> Peek(path, st.p + 2) != SLASH && Peek(path, st.p + 2) != NUL
    ensures Inv(policy, s, target, st.(phase := SearchSlash), names)
  {
    PeekCString(path, st.p + 1);
    if Peek(path, st.p + 1) == DOT {
      PeekCString(path, st.p + 2);
    }
  }

  /** After a `.` or `..` segment: skip the run of slashes and go back to
      `CHECK_FIRST`. */
  method SkipToNextSegment(path: seq<byte>, ghost s: seq<byte>, policy: Policy, p: nat, stack: Stack,
                           ghost target: seq<seq<byte>>, ghost names: seq<seq<byte>>)
    returns (st': ScanState)
    requires s == CString(path)
    requires Resumable(policy, s, target, p, stack, names)
    ensures st'.phase == CheckFirst && st'.p >= p && st'.stack == stack
    ensures SlashRunTo(path, p, st'.p)
    ensures Inv(policy, s, target, st', names)
  {
    var q := SkipSlashes(path, p);
    Restart(policy, path, s, target, p, q, stack, names);
    st' := ScanState(CheckFirst, q, q, stack);
  }

  /** The `.` arm of `case '.'`: the segment is dropped, the slashes after
      it are skipped, and the scan re-enters `CHECK_FIRST`. */
  method SkipDotSegment(path: seq<byte>, ghost s: seq<byte>, policy: Policy, st: ScanState,
                        ghost target: seq<seq<byte>>, ghost names: seq<seq<byte>>)
    returns (st': ScanState, ghost names': seq<seq<byte>>)
    requires s == CString(path)
    requires st.phase == DotSegment
    requires Inv(policy, s, target, st, names)
    requires Peek(path, st.p + 1) == SLASH || Peek(path, st.p + 1) == NUL
    ensures st'.phase == CheckFirst && st'.p > st.p && st'.stack == st.stack
    ensures SlashRunTo(path, st.p + 1, st'.p)
    ensures names' == names && Inv(policy, s, target, st', names')
  {
    DotStep(policy, path, s, target, st, names);
    st' := SkipToNextSegment(path, s, policy, st.p + 1, st.stack, target, names);
    names' := names;
  }

  /** The `..` arm of `case '.'`: the copy's `..` rule is applied to the
      stack, the slashes after the segment are skipped, and the scan
      re-enters `CHECK_FIRST`. */
  method SkipDotDotSegment(path: seq<byte>, ghost s: seq<byte>, policy: Policy, st: ScanState,
                           ghost target: seq<seq<byte>>, ghost names: seq<seq<byte>>)
    returns (st': ScanState, ghost names': seq<seq<byte>>)
    requires s == CString(path)
    requires st.phase == DotSegment
    requires Inv(policy, s, target, st, names)
    requires Peek(path, st.p + 1) == DOT
    requires Peek(path, st.p + 2) == SLASH || Peek(path, st.p + 2) == NUL
    ensures st'.phase == CheckFirst && st'.p >= st.p + 2 && st'.stack == ParentOp(policy, st.stack)
    ensures SlashRunTo(path, st.p + 2, st'.p)
    ensures names' == Parent(policy, IsAbsolute(s), names) && Inv(policy, s, target, st', names')
  {
    DotDotStep(policy, path, s, target, st, names);
    names' := Parent(policy, IsAbsolute(s), names);
    st' := SkipToNextSegment(path, s, policy, st.p + 2, ParentOp(policy, st.stack), target, names');
  }

  /** The move `case '.'` makes, chosen by the two bytes after the `.` (the
      end read as NUL): past a `.` segment back to `CHECK_FIRST` with the
      stack as it was; past a `..` segment back to `CHECK_FIRST` with the
      copy's `..` rule applied to the stack; for any other name, on to the
      search with nothing else changed. */
  predicate DotSegmentMove(path: seq<byte>, policy: Policy, st: ScanState, st': ScanState)
    requires st.p < |path|
  {
    var b1 := Peek(path, st.p + 1);
    // Bound to a name for the same reason as in `Inv`.
    var holds :=
      if b1 == SLASH || b1 == NUL then
        st'.phase == CheckFirst && st'.p > st.p && st'.stack == st.stack
      else if b1 == DOT && (Peek(path, st.p + 2) == SLASH || Peek(path, st.p + 2) == NUL) then
        st'.phase == CheckFirst && st'.p >= st.p + 2 && st'.stack == ParentOp(policy, st.stack)
      else
        st' == st.(phase := SearchSlash);
    holds
  }

  /** `case '.'`: a `.` segment is skipped, a `..` segment goes through the
      policy, and any other name starting with `.` is searched as usual. */
  method DotSegmentStep(path: seq<byte>, ghost s: seq<byte>, policy: Policy, st: ScanState,
                        ghost target: seq<seq<byte>>, ghost names: seq<seq<byte>>)
    returns (st': ScanState, ghost names': seq<seq<byte>>)
    requires s == CString(path)
    requires st.phase == DotSegment
    requires Inv(policy, s, target, st, names)
    ensures Inv(policy, s, target, st', names')
    ensures Progress(st, st')
    ensures st.p < |path| && DotSegmentMove(path, policy, st, st')
  {
    var p := st.p;
    var b1 := Peek(path, p + 1);
    if b1 == SLASH || b1 == NUL {
      st', names' := SkipDotSegment(path, s, policy, st, target, names);
    } else if b1 == DOT && (Peek(path, p + 2) == SLASH || Peek(path, p + 2) == NUL) {
      st', names' := SkipDotDotSegment(path, s, policy, st, target, names);
    } else {
      // a segment that merely starts with '.'
      DotName(policy, path, s, target, st, names);
      names' := names;
      st' := st.(phase := SearchSlash);
    }
  }

  /** The end of the `/` search: the searched run is a whole segment that
      is neither `.` nor `..` and is pending, before a `/` in
      `ADD_SEGMENT` or at the end of the text. */
  lemma SearchStop(policy: Policy, s: seq<byte>, target: seq<seq<byte>>,
                   st: ScanState, names: seq<seq<byte>>, q: nat)
    requires st.phase == SearchSlash
    requires Inv(policy, s, target, st, names)
    requires st.p <= q <= |s| && EndsSegment(s, q)
    requires forall i :: st.p <= i < q ==> s[i] != SLASH
    ensures q < |s| ==> Inv(policy, s, target, st.(phase := AddSegment, p := q), names)
    ensures q == |s| ==> Inv(policy, s, target, st.(phase := Done, p := q), names)
  {
    var head := st.head;
    if head < q {
      assert !DotSegmentAt(s, head);
      assert s[head..q] != DotSeg && s[head..q] != DotDotSeg;
    }
  }

  /** The `/` search: run to the next `/` (back to `ADD_SEGMENT`) or to
      the first NUL (end of the scan). */
  method SearchSlashStep(path: seq<byte>, ghost s: seq<byte>, policy: Policy, st: ScanState,
                         ghost target: seq<seq<byte>>, ghost names: seq<seq<byte>>)
    returns (st': ScanState)
    requires s == CString(path)
    requires st.phase == SearchSlash
    requires Inv(policy, s, target, st, names)
    ensures Inv(policy, s, target, st', names)
    ensures Progress(st, st')
    ensures st'.stack == st.stack && st'.head == st.head && st.p <= st'.p <= |path|
    ensures forall i :: st.p <= i < st'.p ==> path[i] != SLASH && path[i] != NUL
    ensures Peek(path, st'.p) == SLASH ==> st'.phase == AddSegment
    ensures Peek(path, st'.p) != SLASH ==> Peek(path, st'.p) == NUL && st'.phase == Done
  {
    var q := FindSlashOrNul(path, st.p);
    RunInCString(path, st.p, q);
    PeekCString(path, q);
    SearchStop(policy, s, target, st, names, q);
    if Peek(path, q) == SLASH {
      st' := st.(phase := AddSegment, p := q);
    } else {
      st' := st.(phase := Done, p := q);
    }
  }

  /** The scan of `path` with the given `..` policy. */
  method Scan(path: seq<byte>, policy: Policy) returns (r: Outcome)
    ensures r == Normalize(policy, path)
  {
    ghost var s := CString(path);
    ghost var abs := IsAbsolute(s);
    ghost var target := Resolve(policy, abs, [], Split(s));
    assert s[0..] == s;
    var st := ScanState(CheckFirst, 0, 0, []);
    ghost var names: seq<seq<byte>> := [];
    while st.phase != Done
      invariant Inv(policy, s, target, st, names)
      decreases |s| - st.p, Rank(st.phase)
    {
      match st.phase {
        case CheckFirst =>
          st := CheckFirstStep(path, s, policy, st, target, names);
        case AddSegment =>
          st, names := AddSegmentStep(path, s, policy, st, target, names);
        case DotSegment =>
          st, names := DotSegmentStep(path, s, policy, st, target, names);
        case SearchSlash =>
          st := SearchSlashStep(path, s, policy, st, target, names);
      }
    }
    var p, head, stack := st.p, st.head, st.stack;
    // the scan stopped at a NUL inside the string
    if p != |path| {
      r := Err(EILSEQ, OpName(policy));
      return;
    }
    assert s == path;
    if head < |path| {
      // the final segment is still pending: push it
      PendingStep(policy, s, abs, names, head, p);
      assert s[p..] == [];
      FinishTokensLast(abs, names, path[head..]);
      stack := stack + [path[head..]];
    } else {
      assert s[head..] == [];
      FinishTokens(abs, names);
    }
    r := Ok(Finish(stack));
  }
}

=== FILE: segments.dfy ===
/** Path segments: the maximal runs of non-`/` bytes of a path, and the
    inverse operation that joins segments with single separators. */
module Segments {
  import opened Bytes

  const DotSeg: seq<byte> := [DOT]
  const DotDotSeg: seq<byte> := [DOT, DOT]

  /** A segment is non-empty and holds no separator. */
  predicate IsSegment(t: seq<byte>) {
    |t| > 0 && forall i :: 0 <= i < |t| ==> t[i] != SLASH
  }

  /** Number of bytes before the first `/` (or the whole length). */
  function SegmentLength(s: seq<byte>): (k: nat)
    ensures k <= |s|
    ensures forall i :: 0 <= i < k ==> s[i] != SLASH
    ensures k < |s| ==> s[k] == SLASH
  {
    if |s| == 0 || s[0] == SLASH then 0 else 1 + SegmentLength(s[1..])
  }

  /** The segments of `s` in order; runs of `/` separate them and leave no
      trace. */
  function Split(s: seq<byte>): (segs: seq<seq<byte>>)
    ensures forall i :: 0 <= i < |segs| ==> IsSegment(segs[i])
    ensures NulFree(s) ==> forall i :: 0 <= i < |segs| ==> NulFree(segs[i])
    decreases |s|
  {
    if |s| == 0 then []
    else if s[0] == SLASH then Split(s[1..])
    else
      var k := SegmentLength(s);
      assert s[..k] == s[..k];
      [s[..k]] + Split(s[k..])
  }

  /** The segments separated by single `/`, with none before or after. */
  function Join(names: seq<seq<byte>>): seq<byte>
  {
    if |names| == 0 then []
    else if |names| == 1 then names[0]
    else names[0] + [SLASH] + Join(names[1..])
  }

  predicate NoDoubleSlash(t: seq<byte>) {
    forall i :: 0 <= i < |t| - 1 ==> t[i] != SLASH || t[i + 1] != SLASH
  }

  /** A run of separators at the front contributes no segment. */
  lemma {:induction false} SplitSkip(s: seq<byte>, i: nat, j: nat)
    requires i <= j <= |s|
    requires forall k :: i <= k < j ==> s[k] == SLASH
    ensures Split(s[i..]) == Split(s[j..])
    decreases j - i
  {
    if i < j {
      assert s[i..][1..] == s[i + 1..];
      SplitSkip(s, i + 1, j);
    }
  }

  /** A slash-free run ended by `/` or by the end is the first segment. */
  lemma SplitAt(s: seq<byte>, i: nat, k: nat)
    requires i < k <= |s|
    requires forall m :: i <= m < k ==> s[m] != SLASH
    requires k == |s| || s[k] == SLASH
    ensures Split(s[i..]) == [s[i..k]] + Split(s[k..])
  {
    var t := s[i..];
    var n := SegmentLength(t);
    assert n == k - i;
    assert t[..n] == s[i..k];
    assert t[n..] == s[k..];
  }

  /** Split distributes over a separator. */
  lemma {:induction false} SplitAppend(a: seq<byte>, b: seq<byte>)
    ensures Split(a + [SLASH] + b) == Split(a) + Split(b)
    decreases |a|
  {
    var s := a + [SLASH] + b;
    if |a| == 0 {
      assert s[1..] == b;
    } else if a[0] == SLASH {
      assert s[1..] == a[1..] + [SLASH] + b;
      SplitAppend(a[1..], b);
    } else {
      var k := SegmentLength(a);
      SplitAt(s, 0, k);
      assert s[0..] == s;
      assert s[..k] == a[..k];
      assert s[k..] == a[k..] + [SLASH] + b;
      SplitAt(a, 0, k);
      assert a[0..] == a;
      SplitAppend(a[k..], b);
    }
  }

  /** A lone segment splits to itself. */
  lemma SplitSingle(n: seq<byte>)
    requires IsSegment(n)
    ensures Split(n) == [n]
  {
    SplitAt(n, 0, |n|);
    assert n[0..] == n[0..|n|] == n;
    assert n[|n|..] == [];
  }

  /** Joining well-formed segments and splitting again gives them back. */
  lemma {:induction false} SplitJoin(names: seq<seq<byte>>)
    requires forall i :: 0 <= i < |names| ==> IsSegment(names[i])
    ensures Split(Join(names)) == names
    decreases |names|
  {
    if |names| == 1 {
      SplitSingle(names[0]);
    } else if |names| > 1 {
      SplitJoin(names[1..]);
      SplitAppend(names[0], Join(names[1..]));
      SplitSingle(names[0]);
      assert names == [names[0]] + names[1..];
    }
  }

  /** The shape of a join of segments: it starts and ends with a segment
      byte and never holds two separators in a row. */
  lemma {:induction false} JoinShape(names: seq<seq<byte>>)
    requires forall i :: 0 <= i < |names| ==> IsSegment(names[i])
    ensures var j := Join(names);
      (|j| == 0 <==> |names| == 0)
      && (|j| > 0 ==> j[0] != SLASH && j[|j| - 1] != SLASH)
      && NoDoubleSlash(j)
    decreases |names|
  {
    if |names| > 1 {
      JoinShape(names[1..]);
      var n := names[0];
      var rest := Join(names[1..]);
      var j := n + [SLASH] + rest;
      assert j == Join(names);
      forall i | 0 <= i < |j| - 1
        ensures j[i] != SLASH || j[i + 1] != SLASH
      {
        if i + 1 < |n| {
          assert j[i] == n[i];
        } else if i + 1 == |n| {
          assert j[i] == n[i];
        } else if i == |n| {
          assert j[i + 1] == rest[0];
        } else {
          assert j[i] == rest[i - |n| - 1] && j[i + 1] == rest[i - |n|];
        }
      }
    }
  }

  /** Appending a segment at the end of a join. */
  lemma {:induction false} JoinSnoc(names: seq<seq<byte>>, seg: seq<byte>)
    ensures Join(names + [seg]) == if |names| == 0 then seg else Join(names) + [SLASH] + seg
    decreases |names|
  {
    if |names| > 1 {
      assert (names + [seg])[1..] == names[1..] + [seg];
      JoinSnoc(names[1..], seg);
    } else if |names| == 1 {
      assert (names + [seg])[1..] == [seg];
    }
  }

  /** A NUL-free collection of segments joins to a NUL-free string. */
  lemma {:induction false} JoinNulFree(names: seq<seq<byte>>)
    requires forall i :: 0 <= i < |names| ==> NulFree(names[i])
    ensures NulFree(Join(names))
    decreases |names|
  {
    if |names| > 1 {
      JoinNulFree(names[1..]);
    }
  }
}

=== FILE: tokens.dfy ===
/** The token stack the C scanners keep on a private Lua thread: every
    entry is a string, either a name, the separator "/" or a retained "..".
    Its shape during the scan is an optional root "/" followed by
    (name, "/") pairs, and this module relates that shape to the
    segment-level names of module Lexical. */
module TokenStack {
  import opened Bytes
  import opened Segments
  import opened Lexical

  type Stack = seq<seq<byte>>

  const SlashToken: seq<byte> := [SLASH]

  /** Each name followed by its separator. */
  function Pairs(names: seq<seq<byte>>): Stack
  {
    if |names| == 0 then [] else [names[0], SlashToken] + Pairs(names[1..])
  }

  /** The stack that stands for `names` under root flag `abs`. */
  function Tokens(abs: bool, names: seq<seq<byte>>): Stack
  {
    (if abs then [SlashToken] else []) + Pairs(names)
  }

  /** First character of a C string: its terminator when it is empty. */
  function FirstByte(t: seq<byte>): byte
  {
    if |t| == 0 then NUL else t[0]
  }

  /** `..` in normalize_lua: with one entry, drop it unless it is the root
      "/"; with more, pop the previous name and its "/" unless that name
      is "..", in which case, as with an empty stack, push "..", "/". */
  function ParentLua(stack: Stack): (r: Stack)
    ensures (|r| <= |stack| && r == stack[..|r|]) || r == stack + [DotDotSeg, SlashToken]
    ensures |r| > |stack| <==> |stack| == 0 || (|stack| > 1 && stack[|stack| - 2] == DotDotSeg)
    ensures stack == [SlashToken] ==> r == stack
  {
    if |stack| == 1 then (if FirstByte(stack[0]) != SLASH then [] else stack)
    else if |stack| > 1 && stack[|stack| - 2] != DotDotSeg then stack[..|stack| - 2]
    else stack + [DotDotSeg, SlashToken]
  }

  /** `..` in lua_realpath_normalize: pop two entries when there are more
      than one, otherwise do nothing. */
  function ParentHeader(stack: Stack): (r: Stack)
    ensures |r| <= |stack| && r == stack[..|r|]
    ensures |stack| > 1 <==> |r| == |stack| - 2
    ensures |stack| <= 1 ==> r == stack
  {
    if |stack| > 1 then stack[..|stack| - 2] else stack
  }

  function ParentOp(policy: Policy, stack: Stack): Stack
  {
    match policy
    case Corrected => ParentLua(stack)
    case Naive => ParentHeader(stack)
  }

  /** The entries concatenated in order (lua_concat). */
  function Concat(stack: Stack): seq<byte>
  {
    if |stack| == 0 then [] else Concat(stack[..|stack| - 1]) + stack[|stack| - 1]
  }

  /** End of the scan: an empty stack yields ".", a trailing "/" is dropped
      unless it is the only entry, and the rest is concatenated. */
  function Finish(stack: Stack): (out: seq<byte>)
    ensures |stack| == 0 ==> out == DotSeg
    ensures |stack| > 1 && FirstByte(stack[|stack| - 1]) == SLASH ==> Concat(stack) == out + stack[|stack| - 1]
    ensures |stack| > 0 && !(|stack| > 1 && FirstByte(stack[|stack| - 1]) == SLASH) ==> out == Concat(stack)
  {
    if |stack| == 0 then DotSeg
    else if |stack| > 1 && FirstByte(stack[|stack| - 1]) == SLASH then Concat(stack[..|stack| - 1])
    else Concat(stack)
  }

  lemma {:induction false} PairsSnoc(names: seq<seq<byte>>, n: seq<byte>)
    ensures Pairs(names + [n]) == Pairs(names) + [n, SlashToken]
    decreases |names|
  {
    if |names| > 0 {
      assert (names + [n])[1..] == names[1..] + [n];
      PairsSnoc(names[1..], n);
    }
  }

  lemma {:induction false} PairsLength(names: seq<seq<byte>>)
    ensures |Pairs(names)| == 2 * |names|
    decreases |names|
  {
    if |names| > 0 {
      PairsLength(names[1..]);
    }
  }

  /** Pushing a name and its separator onto the stack of `names` gives the
      stack of `names + [n]`. */
  lemma TokensPush(abs: bool, names: seq<seq<byte>>, n: seq<byte>)
    ensures Tokens(abs, names) + [n, SlashToken] == Tokens(abs, names + [n])
  {
    PairsSnoc(names, n);
  }

  /** The stack has one entry exactly when it is the bare root, so the
      non-slash arm of normalize_lua's `case 1` can never be taken. */
  lemma TokensSingle(abs: bool, names: seq<seq<byte>>)
    ensures |Tokens(abs, names)| == 1 <==> abs && |names| == 0
    ensures |Tokens(abs, names)| == 1 ==> FirstByte(Tokens(abs, names)[0]) == SLASH
    ensures |Tokens(abs, names)| == 0 <==> !abs && |names| == 0
  {
    PairsLength(names);
  }

  /** Popping two entries off the stack of non-empty `names` removes the
      last name, and the entry under the top "/" is that last name. */
  lemma TokensPop(abs: bool, names: seq<seq<byte>>)
    requires |names| > 0
    ensures var t := Tokens(abs, names);
      t == Tokens(abs, names[..|names| - 1]) + [names[|names| - 1], SlashToken]
      && |t| > 1 && t[|t| - 2] == names[|names| - 1]
      && t[..|t| - 2] == Tokens(abs, names[..|names| - 1])
  {
    var init := names[..|names| - 1];
    assert names == init + [names[|names| - 1]];
    TokensPush(abs, init, names[|names| - 1]);
  }

  /** Both stack-level `..` operations act on the stack of `names` exactly
      as the segment-level policy acts on `names`. */
  lemma TokensParent(policy: Policy, abs: bool, names: seq<seq<byte>>)
    ensures ParentOp(policy, Tokens(abs, names)) == Tokens(abs, Parent(policy, abs, names))
  {
    TokensSingle(abs, names);
    TokensPush(abs, names, DotDotSeg);
    var t := Tokens(abs, names);
    if |names| > 0 {
      TokensPop(abs, names);
      assert |t| != 1;
    } else if abs {
      assert t == [SlashToken];
    } else {
      assert t == [];
      assert names + [DotDotSeg] == [DotDotSeg];
    }
  }

  lemma {:induction false} ConcatAppend(a: Stack, b: Stack)
    ensures Concat(a + b) == Concat(a) + Concat(b)
    decreases |b|
  {
    if |b| > 0 {
      var ab := a + b;
      assert ab[..|ab| - 1] == a + b[..|b| - 1];
      assert ab[|ab| - 1] == b[|b| - 1];
      ConcatAppend(a, b[..|b| - 1]);
      calc {
        Concat(ab);
        Concat(a + b[..|b| - 1]) + b[|b| - 1];
        Concat(a) + Concat(b[..|b| - 1]) + b[|b| - 1];
        Concat(a) + (Concat(b[..|b| - 1]) + b[|b| - 1]);
        Concat(a) + Concat(b);
      }
    } else {
      assert a + b == a;
    }
  }

  lemma {:induction false} ConcatPairs(names: seq<seq<byte>>)
    requires |names| > 0
    ensures Concat(Pairs(names)) == Join(names) + [SLASH]
    decreases |names|
  {
    var head: Stack := [names[0], SlashToken];
    assert Concat(head) == names[0] + [SLASH] by {
      var one: Stack := [names[0]];
      assert head[..1] == one;
      assert one[..0] == [];
      assert Concat(one) == names[0];
    }
    ConcatAppend(head, Pairs(names[1..]));
    if |names| > 1 {
      ConcatPairs(names[1..]);
    }
  }

  /** The concatenated stack of `names`: the root, then each name
      followed by its separator. */
  lemma ConcatTokens(abs: bool, names: seq<seq<byte>>)
    ensures Concat(Tokens(abs, names))
         == (if abs then [SLASH] else []) + (if |names| == 0 then [] else Join(names) + [SLASH])
  {
    var root: Stack := if abs then [SlashToken] else [];
    assert Concat(root) == (if abs then [SLASH] else []) by {
      if abs {
        assert root[..0] == [];
      }
    }
    ConcatAppend(root, Pairs(names));
    if |names| > 0 {
      ConcatPairs(names);
    }
  }

  /** Finishing the stack of `names` renders `names`. */
  lemma FinishTokens(abs: bool, names: seq<seq<byte>>)
    ensures Finish(Tokens(abs, names)) == Render(abs, names)
  {
    var t := Tokens(abs, names);
    TokensSingle(abs, names);
    ConcatTokens(abs, names);
    if |names| > 0 {
      TokensPop(abs, names);
      var c := Concat(t);
      var prefix: seq<byte> := if abs then [SLASH] else [];
      assert c == Concat(t[..|t| - 1]) + [SLASH];
      assert c == prefix + Join(names) + [SLASH];
      assert Concat(t[..|t| - 1]) == c[..|c| - 1] == prefix + Join(names);
    }
  }

  /** Finishing the stack of `names` with a last segment on top renders
      `names` followed by that segment. */
  lemma FinishTokensLast(abs: bool, names: seq<seq<byte>>, seg: seq<byte>)
    requires IsSegment(seg)
    ensures Finish(Tokens(abs, names) + [seg]) == Render(abs, names + [seg])
  {
    var t := Tokens(abs, names);
    var c := t + [seg];
    assert c[..|c| - 1] == t;
    assert Finish(c) == Concat(t) + seg by {
      assert FirstByte(c[|c| - 1]) != SLASH;
    }
    ConcatTokens(abs, names);
    JoinSnoc(names, seg);
    if |names| == 0 {
      assert names + [seg] == [seg];
    }
  }
}
